=== FILE: README.md ===
# Exchange toolkit data-shaping model

A Dafny model of the pure core of a small market-data toolkit. The toolkit fetches tickers, trades, candlesticks, open interest and funding rates from the Coinalyze and Binance REST APIs. It turns the decoded responses into a shared set of value records, and it has a helper that checks whether a candle's OHLC prices are consistent.

The model has no transport. A response is `Http.Response(status, body)`, where the body is an already-decoded JSON value (`JsonData.Json`). A request is the `Http.Request` the adapter would hand to the client: URL, headers, and query parameters in insertion order. Every operation is a pure function from its inputs and the response to a `Result`. On success it returns the whole mapped list, or the raw body for Coinalyze. On failure it returns an `Adapter.Error` that stands for the exception the toolkit raises. Decimals are exact `real`s and timestamps are `int`s.

Modules:

- `Wrappers`: `Option` and `Result`.
- `DecimalText`: reading a decimal literal such as "0.01634790" into an exact real, and writing one back.
- `JsonData`: decoded JSON values, lookup of named entries (object fields and query parameters), and the Python operations the adapters apply to decoded values:
  - `obj[key]`;
  - `for x in value`, where a list yields its elements, a dict its keys and a string its characters;
  - truthiness;
  - field coercion, where a decimal field accepts a JSON integer, a JSON number, or a string holding a decimal literal.
- `Http`: response and request.
- `Adapter`: the error taxonomy, the status rule, and the all-or-nothing list comprehension (`MapAll`, `Collect`).
- `Text`: Python's `",".join` and `str.split(",")`, with their round trip.
- `Models`: `toolkit/models.py`, i.e. `Timeframe` with its wire codes, and `Trade`, `Candle`, `Ticker`, `Market`.
- `Utils`: `verify_candle`.
- `Coinalyze`, `Binance`: the two adapters in `toolkit/exchanges.py`.
- `BinanceEncoding`: ticker and trade objects carrying only the fields the mappers read, and kline rows with any trailing positions, built from records, and round-trip lemmas proving each mapper reads back exactly the record it was given. Each decimal may be written as a JSON number or, as the exchange sends it, as a string.
- `StatusRule`: the non-OK rule, stated once for all seven operations.
- `Notebook`: `notebooks/models.py`, i.e. `Side`, the repeated `Timeframe`, and `Trade` with a typed side. It converts toolkit trades, candles and tickers into notebook ones, and converts timeframes both ways.

Behaviour of the code that the model keeps:

- Any status other than 200 raises, including other 2xx statuses: toolkit/exchanges.py:25 and the six other checks compare against `httpx.codes.OK`.
- Binance `markets()` maps the 24-hour ticker list into `Ticker`s (toolkit/exchanges.py:88-95).
- toolkit/exchanges.py defines only the Coinalyze and Binance adapters.
- Coinalyze's four operations return the decoded body unmapped.
- The maker flag goes through Python truthiness (`if ismaker:` at toolkit/exchanges.py:83), so any truthy JSON value gives "sell".
- A body that is a dict or a string iterates over its keys or characters. If it is empty the result is `Ok([])`. Otherwise `markets` and `trades` fail on the first item, because a string cannot be indexed by a field name. `kline` slices each item with `kline[:6]`: a one-character item is too short to fill six fields, and a longer string item fails in the model only because timestamps are read from integers alone (see Left out). A number, boolean or null body cannot be iterated.
- `trades` and `kline` send `limit` 500 when the caller gives none.

## Model

| member | source | states |
|---|---|---|
| Models.Code | toolkit/models.py:7-11 | Every timeframe's code is two characters starting with "1"; `Models.FromCode` inverts it. |
| Models.FromCode | toolkit/models.py:6-11 | Reading a code back gives the timeframe with that code. A string that is no timeframe's code gives nothing. |
| Models.CodeRoundTrip | toolkit/models.py:7-11 | Decoding any timeframe's code returns that same timeframe. |
| Models.CodeInjective | toolkit/models.py:7-11 | Two timeframes with the same code are the same timeframe. This separates "1m" from "1M". |
| Models.ExactlyFiveTimeframes | toolkit/models.py:6-11 | There are exactly five timeframes with pairwise distinct codes, all drawn from "1m", "1h", "1d", "1w", "1M". |
| Utils.Max4 | toolkit/utils.py:4 | `max` of four prices is one of them and at least each of them. |
| Utils.Min4 | toolkit/utils.py:5 | `min` of four prices is one of them and at most each of them. |
| Utils.VerifyCandle | toolkit/utils.py:3-6 | The max/min check accepts a candle exactly when low <= open <= high and low <= close <= high. |
| Utils.HighBelowBodyRejected | toolkit/utils.py:4 | A candle whose high is below its open or its close is rejected. |
| Utils.LowAboveBodyRejected | toolkit/utils.py:5 | A candle whose low is above its open or its close is rejected. |
| Utils.AcceptedIsBounded | toolkit/utils.py:4-6 | In an accepted candle, open and close lie in [low, high], and low <= high. |
| Utils.IndependentOfTimeAndVolume | toolkit/utils.py:4-5 | Changing time and volume never changes the verdict. |
| Utils.SymmetricInOpenAndClose | toolkit/utils.py:4-5 | Swapping open and close never changes the verdict. |
| Utils.FlatCandleAccepted | toolkit/utils.py:4-6 | A candle with all four prices equal is accepted. |
| Utils.InvertedCandleConstructible | toolkit/models.py:20-27 | A candle with high below low can be built, and only the check rejects it. |
| JsonData.Field | toolkit/exchanges.py:95 | `obj[key]` finds a value only in a dict, and only one stored under that key. A dict without the key, or a non-dict, gives nothing. |
| JsonData.Truthy | toolkit/exchanges.py:83 | A value is falsy exactly when it is None, False, 0, 0.0, "", [] or {}. |
| JsonData.Iterable | toolkit/exchanges.py:105 | Iterating a list yields its elements, a dict its keys in order, a string its one-character strings in order. Nothing else can be iterated. |
| JsonData.AsTime | toolkit/models.py:15 | A timestamp field accepts exactly a JSON integer and keeps its value. |
| JsonData.AsText | toolkit/models.py:31 | A string field accepts exactly a JSON string and keeps it. |
| JsonData.AsDecimalAccepts | toolkit/models.py:17-18 | A decimal field accepts exactly an integer, a number or a string that is a plain literal (optional sign, digits, at most one point, at least one digit). Integers and numbers are read exactly. |
| JsonData.DecimalField | toolkit/exchanges.py:95 | A decimal is read from a field only in a dict, and it is the coercion of the value stored under that key. When that value coerces, the read succeeds. |
| DecimalText.ParseDecimal | toolkit/models.py:17 | A string is read exactly when it is a plain literal, by a character-level definition; a digit string reads as its value. Anything else, an exponent, a blank or a second point included, is refused. |
| DecimalText.ParseWritten | toolkit/models.py:17 | Any plain literal, that is any sign ("", "+" or "-"), any digits before the point (leading zeros or none), and after an optional point any digits, reads as the value those digits write. |
| DecimalText.SignedSample | toolkit/models.py:17 | "+1.5" reads as 1.5. |
| DecimalText.BarePointSamples | toolkit/models.py:17 | ".5" reads as 0.5 and "5." as 5. |
| DecimalText.LeadingZerosSample | toolkit/models.py:17 | "007" reads as 7. |
| DecimalText.RefusedSamples | toolkit/models.py:17 | "1e5", " 1" and "1_000" are refused. |
| DecimalText.ParseDecimalLiteral | toolkit/models.py:23-27 | Reading a decimal written by the encoder ("-" when negative, even for zero; the whole part without leading zeros; then the point and the fractional digits as given, trailing zeros included, when there are any) gives back exactly its value. |
| Adapter.CheckStatus | toolkit/exchanges.py:25-26 | The body passes exactly when the status is 200. Otherwise the error carries the decoded body. |
| Adapter.MapAll | toolkit/exchanges.py:95 | The comprehension succeeds exactly when every element maps. It then has one image per element, in order. Otherwise it stops at the first element that does not map. |
| Adapter.Collect | toolkit/exchanges.py:92-95 | Possible outcomes: the error body for a non-OK status; NotIterable for a scalar body; the full in-order mapping of the iterated body; or the index of the first element that fails. There is never a partial list. |
| Coinalyze.New | toolkit/exchanges.py:15-18 | Construction fails with MissingKey exactly when the key is empty. Otherwise the client keeps the key unchanged. |
| Coinalyze.SpotMarketsRequest | toolkit/exchanges.py:20-23 | The spot request targets the spot-markets endpoint, sends the key in the `api_key` header and has no parameters. |
| Coinalyze.FuturesMarketsRequest | toolkit/exchanges.py:30-33 | The futures request targets the future-markets endpoint, sends the key in the `api_key` header and has no parameters. |
| Coinalyze.SpotMarkets | toolkit/exchanges.py:20-28 | With status 200 it returns the raw body unchanged. Any other status gives the error body. |
| Coinalyze.FuturesMarkets | toolkit/exchanges.py:30-38 | With status 200 it returns the raw body unchanged. Any other status gives the error body. |
| Coinalyze.OpenInterestRequest | toolkit/exchanges.py:40-47 | A request is built exactly when at most 20 markets are given; otherwise TooManyMarkets. The request sends `symbols` as the comma-join of the markets and `convert_to_usd` as "true". |
| Coinalyze.FundingRequest | toolkit/exchanges.py:54-61 | The batch guard is the same. `symbols` is the only parameter, so `convert_to_usd` is absent. |
| Coinalyze.OpenInterest | toolkit/exchanges.py:40-52 | More than 20 markets fail whatever the response. Otherwise: the raw body on status 200, the error body on any other status. |
| Coinalyze.Funding | toolkit/exchanges.py:54-66 | More than 20 markets fail whatever the response. Otherwise: the raw body on status 200, the error body on any other status. |
| Coinalyze.SymbolsRoundTrip | toolkit/exchanges.py:46 | Splitting the `symbols` value on "," recovers the markets in order. This holds for 1 to 20 markets, none containing a comma. |
| Text.Join | toolkit/exchanges.py:46 | The join of no markets is ""; otherwise it starts with the first market and is one character per neighbour pair longer than the markets together. |
| Text.JoinHoldsParts | toolkit/exchanges.py:46 | For any parts, separators inside them included, part i appears in the join at the position after the parts before it and one separator each. |
| Text.JoinSeparates | toolkit/exchanges.py:46 | For any parts, the character just before every part but the first is the separator. With `Text.Join`'s length this fixes the join completely. |
| Text.SplitJoin | toolkit/exchanges.py:60 | `split(",")` undoes `",".join` on a non-empty list of comma-free strings. |
| Text.JoinEmptySplitsToOnePiece | toolkit/exchanges.py:46 | The empty market list joins to "", which splits into [""]. So the round trip needs at least one market. |
| Text.JoinInjective | toolkit/exchanges.py:46 | Different non-empty lists of comma-free markets give different `symbols` values. |
| Text.SeparatorInsidePartIsLost | toolkit/exchanges.py:46 | A market containing a comma is not recovered: "a,b" splits into "a" and "b". |
| Binance.Ds | toolkit/exchanges.py:81-86 | The side is always "buy" or "sell", and it is "sell" exactly when the maker flag is set. |
| Binance.TickerOf | toolkit/exchanges.py:95 | An element maps exactly when it is an object with a string `symbol` and decimal `lastPrice` and `volume`. The Ticker is built from those three fields. |
| Binance.TradeOf | toolkit/exchanges.py:105 | An element maps exactly when it has an integer `time`, any `isBuyerMaker`, and decimal `price` and `qty`. The side comes from the truthiness of the maker flag. |
| Binance.CandleOf | toolkit/exchanges.py:115 | A row maps exactly when it is an array of at least six positions, an integer first and then five decimals. Positions 0-5 become time, open, high, low, close, volume; later positions are ignored. |
| Binance.MarketsRequest | toolkit/exchanges.py:88-90 | The ticker request targets the 24-hour ticker endpoint, with no headers and no parameters. |
| Binance.TradesRequest | toolkit/exchanges.py:97-100 | The trades request sends `symbol` and `limit` as given. |
| Binance.KlineRequest | toolkit/exchanges.py:107-110 | The kline request sends `symbol` and `limit`. Its `interval` is a code that decodes back to the requested timeframe. |
| Binance.DefaultLimitSent | toolkit/exchanges.py:97-109 | With no limit given, the trades and kline requests send `limit` 500. |
| Binance.Markets | toolkit/exchanges.py:88-95 | A non-OK status gives the error body. For a list body it succeeds exactly when every element is a ticker object, and it then returns one Ticker per element, in order. An empty dict or string body gives an empty list, and a non-empty one fails at item 0, since keys and characters are not ticker objects. |
| Binance.Trades | toolkit/exchanges.py:97-105 | A non-OK status gives the error body. For a list body it succeeds exactly when every element is a trade object, and it then returns one Trade per element, in order. Every side is "buy" or "sell". An empty dict or string body gives an empty list, and a non-empty one fails at item 0. |
| Binance.Kline | toolkit/exchanges.py:107-115 | A non-OK status gives the error body. For a list body it succeeds exactly when every row has six usable positions, and it then returns one Candle per row, in order. An empty dict or string body gives an empty list, and a non-empty one fails at item 0. |
| BinanceEncoding.CellReadsBack | toolkit/models.py:32-33 | A decimal written as a JSON number or as a decimal-literal string is read back as its value. |
| BinanceEncoding.MarketsRoundTrip | toolkit/exchanges.py:95 | Mapping a ticker list built from any tickers returns those tickers, however each decimal is written. |
| BinanceEncoding.TradesRoundTrip | toolkit/exchanges.py:105 | Mapping a trade list built from trades with side "buy" or "sell" returns those trades, however each decimal is written. The maker flag is true exactly for sells. |
| BinanceEncoding.KlineRoundTrip | toolkit/exchanges.py:115 | Mapping kline rows built from any candles returns those candles, however each decimal is written and whatever follows the sixth position. |
| BinanceEncoding.StringPricedTicker | toolkit/exchanges.py:95 | The ticker `{"symbol": "ETHBTC", "lastPrice": "0.0163", "volume": "1.5"}` maps to `Ticker("ETHBTC", 0.0163, 1.5)`. |
| StatusRule.NonOkIsHttpError | toolkit/exchanges.py:25-113 | For every status other than 200, all seven operations return the error carrying the body unchanged. For Coinalyze batches this applies once the batch is within the limit. |
| Notebook.SideCode | notebooks/models.py:7-8 | A side's code is "buy" or "sell"; `Notebook.SideFromCode` inverts it. |
| Notebook.SideFromCode | notebooks/models.py:6-8 | Reading a side code back gives the side with that code. A string that is neither "buy" nor "sell" gives nothing. |
| Notebook.SideCodes | notebooks/models.py:6-8 | There are exactly two sides. Their codes differ and decode back. |
| Notebook.SideOfMaker | notebooks/models.py:6-8 | Lifting the maker-flag side into `Side` is total. Its code is the string the toolkit returns, and it is Sell exactly when the flag is set. |
| Notebook.Code | notebooks/models.py:11-15 | Every timeframe's code is two characters starting with "1", as in toolkit/models.py. |
| Notebook.ToToolkit | notebooks/models.py:10-15 | Each notebook timeframe maps to a toolkit timeframe with the same code. |
| Notebook.FromToolkit | notebooks/models.py:10-15 | Each toolkit timeframe maps to a notebook timeframe with the same code. |
| Notebook.TimeframesAgree | notebooks/models.py:10-15 | The two timeframe enumerations are in one-to-one correspondence, and codes agree exactly along it. |
| Notebook.LiftTrade | notebooks/models.py:17-22 | A toolkit trade becomes a notebook trade exactly when its side string is "buy" or "sell". Time, price and volume are kept. |
| Notebook.LiftCandle | notebooks/models.py:24-31 | Field order matches toolkit/models.py, so a candle converts without loss. |
| Notebook.LiftTicker | notebooks/models.py:33-37 | A ticker is (symbol, price, volume) in both modules and converts without loss. |
| Notebook.BinanceTradesLift | notebooks/models.py:20 | Every trade produced by the Binance trades mapping lifts into a notebook trade. Its typed side is the one the element's maker flag names. |

## Left out

- HTTP transport, the async client and JSON decoding. The response is an input with an already-decoded body. `trades` is declared `async` but makes a blocking call and ignores its client; it is modelled as a pure function.
- Reading the Coinalyze key from the `COINALYZE` environment variable. The key is a parameter of `Coinalyze.New`.
- Pydantic field coercion beyond a fragment:
  - decimal fields accept JSON integers, JSON numbers, and strings of the form sign, digits, at most one point;
  - timestamps accept JSON integers and are kept as the raw integer, not converted to `datetime`;
  - string fields accept JSON strings.

  Decimal strings with an exponent, surrounding whitespace or underscores are refused by the model although `Decimal` reads them. The `Decimal` context is not modelled.
- Binance.TickerOf: "maps exactly when" holds for decimals written as numbers or plain decimal literals; a string that only the fuller `Decimal` grammar reads makes the model fail where the program succeeds.
- Binance.TradeOf: the same limit on decimal strings as `Binance.TickerOf`.
- Binance.CandleOf: the same limit on decimal strings as `Binance.TickerOf`. Also, only a JSON list is read as a row. `Candle(*kline[:6])` also accepts a string item (a dict body's key, or a string in a list body) of six or more characters, reading its characters as the six fields. For example, the body `{"170000": 0}` gives one candle in the program, whereas the model refuses it because a string row is not a list and its first character is not an integer timestamp.
- Python's `int`/`float` values are exact in the model. A JSON float is held as an exact `real`, with no binary rounding.
- Binance `FUTURES` base URL and the `price` endpoint. Neither is used by any operation.
- toolkit/probabilities.py: floating-point expectancy formulas and pandas means. These are numeric library calls with no control flow.
- The `Market` record is declared but no operation builds one.
- Prices and volumes may be negative; the records do not check them.

=== FILE: adapter.dfy ===
/** What every exchange adapter shares: the error taxonomy, the status rule
    (anything but 200 raises with the decoded body) and the all-or-nothing
    list comprehension that maps a response body element by element. */
module Adapter {
  import opened Wrappers
  import opened JsonData
  import opened Http

  datatype Error =
    /** A non-OK status; carries the decoded body, not the status code. */
    | HttpError(body: Json)
    /** A Coinalyze batch longer than the exchange allows. */
    | TooManyMarkets(count: nat)
    /** A Coinalyze client built without an API key. */
    | MissingKey
    /** The body cannot be iterated (a number, boolean or null). */
    | NotIterable
    /** The element at `index` does not have the shape the mapper reads. */
    | Malformed(index: nat)

  /** The status check every operation performs before touching the body. */
  function CheckStatus(resp: Response): (r: Result<Json, Error>)
    ensures r.Ok? <==> resp.status == OK
    ensures r.Ok? ==> r.value == resp.body
    ensures r.Err? ==> r.error == HttpError(resp.body)
  {
    if resp.status != OK then Err(HttpError(resp.body)) else Ok(resp.body)
  }

  /** `[f(x) for x in items]` where `f` may raise: either every element maps
      and the result lists the images in order, or the comprehension stops at
      the first element that does not map and reports its index. */
  function MapAll<T>(items: seq<Json>, f: Json -> Option<T>): (r: Result<seq<T>, nat>)
    ensures r.Ok? <==> forall i :: 0 <= i < |items| ==> f(items[i]).Some?
    ensures r.Ok? ==> |r.value| == |items|
    ensures r.Ok? ==> forall i :: 0 <= i < |items| ==> f(items[i]) == Some(r.value[i])
    ensures r.Err? ==> r.error < |items| && f(items[r.error]).None?
    ensures r.Err? ==> forall i :: 0 <= i < r.error ==> f(items[i]).Some?
  {
    if |items| == 0 then Ok([])
    else
      match f(items[0])
      case None => Err(0)
      case Some(x) =>
        match MapAll(items[1..], f)
        case Ok(rest) => Ok([x] + rest)
        case Err(k) => Err(k + 1)
  }

  /** A whole list-returning operation: status check, iteration of the body,
      then the element mapper. There is no partial result. */
  function Collect<T>(resp: Response, f: Json -> Option<T>): (r: Result<seq<T>, Error>)
    ensures resp.status != OK ==> r == Err(HttpError(resp.body))
    ensures resp.status == OK && Iterable(resp.body).None? ==> r == Err(NotIterable)
    ensures r.Ok? ==> resp.status == OK && Iterable(resp.body).Some?
    ensures resp.status == OK && Iterable(resp.body).Some? ==>
      var items := Iterable(resp.body).value;
      && (r.Ok? <==> forall i :: 0 <= i < |items| ==> f(items[i]).Some?)
      && (r.Ok? ==> |r.value| == |items| &&
                    forall i :: 0 <= i < |items| ==> f(items[i]) == Some(r.value[i]))
      && (r.Err? ==> r.error.Malformed? && r.error.index < |items| &&
                     f(items[r.error.index]).None? &&
                     forall i :: 0 <= i < r.error.index ==> f(items[i]).Some?)
  {
    var body :- CheckStatus(resp);
    match Iterable(body)
    case None => Err(NotIterable)
    case Some(items) =>
      match MapAll(items, f)
      case Ok(v) => Ok(v)
      case Err(k) => Err(Malformed(k))
  }
}

=== FILE: binance.dfy ===
/** The Binance adapter: public endpoints, no credentials. Each operation
    checks the status and maps every element of the body into a toolkit
    record, or fails as a whole. */
module Binance {
  import opened Wrappers
  import opened JsonData
  import opened Http
  import opened Adapter
  import opened Models

  const BaseUrl: string := "https://api.binance.com"
  const TickerEndpoint: string := "/api/v3/ticker/24hr"
  const KlineEndpoint: string := "/api/v3/klines"
  const TradeEndpoint: string := "/api/v3/trades"

  /** The `limit` sent when the caller gives none. */
  const DefaultLimit: int := 500

  /** `_ds`: the side of a trade from its maker flag. A trade whose buyer was
      the resting maker was a sell by the aggressor, and vice versa. */
  function Ds(isMaker: bool): (r: string)
    ensures r == "sell" || r == "buy"
    ensures r == "sell" <==> isMaker
  {
    if isMaker then "sell" else "buy"
  }

  // ---- Element mappers -------------------------------------------------

  /** `j` is a ticker object whose fields give exactly `t`. */
  predicate TickerFrom(j: Json, t: Ticker)
  {
    && Field(j, "symbol") == Some(JStr(t.symbol))
    && DecimalField(j, "lastPrice") == Some(t.price)
    && DecimalField(j, "volume") == Some(t.volume)
  }

  /** `j` has every field a ticker reads, each of the right kind. */
  predicate IsTickerObject(j: Json)
  {
    && Field(j, "symbol").Some? && Field(j, "symbol").value.JStr?
    && DecimalField(j, "lastPrice").Some?
    && DecimalField(j, "volume").Some?
  }

  /** `Ticker(ticker["symbol"], ticker["lastPrice"], ticker["volume"])`. */
  function TickerOf(j: Json): (r: Option<Ticker>)
    ensures r.Some? <==> IsTickerObject(j)
    ensures r.Some? ==> TickerFrom(j, r.value)
  {
    var symbol :- Field(j, "symbol");
    var symbol :- AsText(symbol);
    var price :- DecimalField(j, "lastPrice");
    var volume :- DecimalField(j, "volume");
    Some(Ticker(symbol, price, volume))
  }

  /** `j` is a trade object whose fields give exactly `t`, the side derived
      from the truthiness of `isBuyerMaker`. */
  predicate TradeFrom(j: Json, t: Trade)
  {
    && Field(j, "time") == Some(JInt(t.time))
    && Field(j, "isBuyerMaker").Some?
    && t.side == Ds(Truthy(Field(j, "isBuyerMaker").value))
    && DecimalField(j, "price") == Some(t.price)
    && DecimalField(j, "qty") == Some(t.volume)
  }

  /** `j` has every field a trade reads, each of the right kind (any value
      at all serves as the maker flag). */
  predicate IsTradeObject(j: Json)
  {
    && Field(j, "time").Some? && Field(j, "time").value.JInt?
    && Field(j, "isBuyerMaker").Some?
    && DecimalField(j, "price").Some?
    && DecimalField(j, "qty").Some?
  }

  /** `Trade(trade["time"], _ds(trade["isBuyerMaker"]), trade["price"], trade["qty"])`. */
  function TradeOf(j: Json): (r: Option<Trade>)
    ensures r.Some? <==> IsTradeObject(j)
    ensures r.Some? ==> TradeFrom(j, r.value)
  {
    var time :- Field(j, "time");
    var time :- AsTime(time);
    var maker :- Field(j, "isBuyerMaker");
    var price :- DecimalField(j, "price");
    var qty :- DecimalField(j, "qty");
    Some(Trade(time, Ds(Truthy(maker)), price, qty))
  }

  /** `row` is a kline array whose first six positions give exactly `c`, in
      the order time, open, high, low, close, volume. */
  predicate CandleFrom(row: Json, c: Candle)
  {
    && row.JArr? && |row.items| >= 6
    && row.items[0] == JInt(c.time)
    && AsDecimal(row.items[1]) == Some(c.open)
    && AsDecimal(row.items[2]) == Some(c.high)
    && AsDecimal(row.items[3]) == Some(c.low)
    && AsDecimal(row.items[4]) == Some(c.close)
    && AsDecimal(row.items[5]) == Some(c.volume)
  }

  /** `row` is an array of at least six positions: an integer time, then
      five decimals. */
  predicate IsKlineRow(row: Json)
  {
    && row.JArr? && |row.items| >= 6
    && row.items[0].JInt?
    && forall k :: 1 <= k < 6 ==> AsDecimal(row.items[k]).Some?
  }

  /** `Candle(*kline[:6])`: a row with fewer than six positions cannot fill
      the six fields; positions past the sixth are dropped. */
  function CandleOf(row: Json): (r: Option<Candle>)
    ensures r.Some? <==> IsKlineRow(row)
    ensures r.Some? ==> CandleFrom(row, r.value)
  {
    if !row.JArr? || |row.items| < 6 then None
    else
      var f := row.items[..6];
      var time :- AsTime(f[0]);
      var open :- AsDecimal(f[1]);
      var high :- AsDecimal(f[2]);
      var low :- AsDecimal(f[3]);
      var close :- AsDecimal(f[4]);
      var volume :- AsDecimal(f[5]);
      Some(Candle(time, open, high, low, close, volume))
  }

  // ---- Requests -------------------------------------------------------

  function MarketsRequest(): (r: Request)
    ensures r.url == BaseUrl + TickerEndpoint && r.headers == [] && r.params == []
  {
    Request(BaseUrl + TickerEndpoint, [], [])
  }

  function TradesRequest(symbol: string, limit: int := DefaultLimit): (r: Request)
    ensures r.url == BaseUrl + TradeEndpoint && r.headers == []
    ensures Lookup(r.params, "symbol") == Some(PStr(symbol))
    ensures Lookup(r.params, "limit") == Some(PInt(limit))
  {
    Request(BaseUrl + TradeEndpoint, [], [("symbol", PStr(symbol)), ("limit", PInt(limit))])
  }

  /** The kline request sends the timeframe's wire code as `interval`, so the
      exchange can read the timeframe back from it. */
  function KlineRequest(symbol: string, interval: Timeframe, limit: int := DefaultLimit): (r: Request)
    ensures r.url == BaseUrl + KlineEndpoint && r.headers == []
    ensures Lookup(r.params, "symbol") == Some(PStr(symbol))
    ensures Lookup(r.params, "limit") == Some(PInt(limit))
    ensures Lookup(r.params, "interval").Some? && Lookup(r.params, "interval").value.PStr?
    ensures FromCode(Lookup(r.params, "interval").value.s) == Some(interval)
  {
    var params := [("symbol", PStr(symbol)), ("interval", PStr(Code(interval))), ("limit", PInt(limit))];
    CodeRoundTrip(interval);
    LookupFirst(params, "limit", 2);
    Request(BaseUrl + KlineEndpoint, [], params)
  }

  /** A caller that gives no limit asks for 500 trades or klines. */
  lemma DefaultLimitSent(symbol: string, interval: Timeframe)
    ensures Lookup(TradesRequest(symbol).params, "limit") == Some(PInt(500))
    ensures Lookup(KlineRequest(symbol, interval).params, "limit") == Some(PInt(500))
  {
  }

  // ---- Operations -----------------------------------------------------

  /** How many items `for x in body` yields over a dict or a string. */
  function KeyOrCharCount(body: Json): nat
  {
    match body
    case JObj(fields) => |fields|
    case JStr(s) => |s|
    case _ => 0
  }

  /** `markets`: every element of the 24-hour ticker list as a `Ticker`, in
      order, or the error body on a non-OK status, or the first element that
      does not map. */
  function Markets(resp: Response): (r: Result<seq<Ticker>, Error>)
    ensures resp.status != OK ==> r == Err(HttpError(resp.body))
    ensures resp.status == OK && resp.body.JArr? ==>
      (r.Ok? <==> forall i :: 0 <= i < |resp.body.items| ==> IsTickerObject(resp.body.items[i]))
    ensures resp.status == OK && (resp.body.JObj? || resp.body.JStr?) ==>
      r == if KeyOrCharCount(resp.body) == 0 then Ok([]) else Err(Malformed(0))
    ensures r.Ok? && resp.body.JArr? ==>
      |r.value| == |resp.body.items| &&
      forall i :: 0 <= i < |r.value| ==> TickerFrom(resp.body.items[i], r.value[i])
  {
    Collect(resp, TickerOf)
  }

  /** `trades`: every element of the recent-trades list as a `Trade`, in
      order, sides from the maker flag. */
  function Trades(resp: Response): (r: Result<seq<Trade>, Error>)
    ensures resp.status != OK ==> r == Err(HttpError(resp.body))
    ensures resp.status == OK && resp.body.JArr? ==>
      (r.Ok? <==> forall i :: 0 <= i < |resp.body.items| ==> IsTradeObject(resp.body.items[i]))
    ensures resp.status == OK && (resp.body.JObj? || resp.body.JStr?) ==>
      r == if KeyOrCharCount(resp.body) == 0 then Ok([]) else Err(Malformed(0))
    ensures r.Ok? && resp.body.JArr? ==>
      |r.value| == |resp.body.items| &&
      forall i :: 0 <= i < |r.value| ==> TradeFrom(resp.body.items[i], r.value[i])
    ensures r.Ok? ==> forall i :: 0 <= i < |r.value| ==> r.value[i].side in ["buy", "sell"]
  {
    Collect(resp, TradeOf)
  }

  /** `kline`: every row of the kline list as a `Candle`, in order. */
  function Kline(resp: Response): (r: Result<seq<Candle>, Error>)
    ensures resp.status != OK ==> r == Err(HttpError(resp.body))
    ensures resp.status == OK && resp.body.JArr? ==>
      (r.Ok? <==> forall i :: 0 <= i < |resp.body.items| ==> IsKlineRow(resp.body.items[i]))
    ensures resp.status == OK && (resp.body.JObj? || resp.body.JStr?) ==>
      r == if KeyOrCharCount(resp.body) == 0 then Ok([]) else Err(Malformed(0))
    ensures r.Ok? && resp.body.JArr? ==>
      |r.value| == |resp.body.items| &&
      forall i :: 0 <= i < |r.value| ==> CandleFrom(resp.body.items[i], r.value[i])
  {
    Collect(resp, CandleOf)
  }
}

=== FILE: binance_encoding.dfy ===
/** Ticker and trade objects carrying only the fields the mappers read, and
    kline rows with any trailing positions, built from toolkit records, and
    the round trips that show each Binance mapper reads back exactly the
    record it was given: the independent reference for the mappers' field
    choices and positions. Each decimal can be written either as a JSON
    number or, as the exchange does, as a string holding a decimal literal. */
module BinanceEncoding {
  import opened Wrappers
  import opened JsonData
  import opened DecimalText
  import opened Http
  import opened Models
  import opened Binance

  /** How one decimal is written: a JSON number, or a string literal with a
      sign, a whole part and fractional digits. */
  datatype Writing = Num(x: real) | Lit(negative: bool, whole: nat, frac: string)

  /** A writing whose fractional part is made of digits. */
  type Dec = d: Writing | d.Lit? ==> AllDigits(d.frac) witness Num(0.0)

  function Value(d: Dec): real
  {
    if d.Num? then d.x else DecimalValue(d.negative, d.whole, d.frac)
  }

  function Cell(d: Dec): Json
  {
    if d.Num? then JNum(d.x) else JStr(DecimalLiteral(d.negative, d.whole, d.frac))
  }

  /** How a candle's five decimals are written. */
  datatype CandleCells = CandleCells(open: Dec, high: Dec, low: Dec, close: Dec, volume: Dec)

  /** Every way of writing a decimal is read back as its value. */
  lemma CellReadsBack(d: Dec)
    ensures AsDecimal(Cell(d)) == Some(Value(d))
  {
    if d.Lit? {
      ParseDecimalLiteral(d.negative, d.whole, d.frac);
    }
  }

  /** A 24-hour ticker object carrying `t`, its decimals written as given. */
  function TickerJson(t: Ticker, price: Dec, volume: Dec): Json
  {
    JObj([("symbol", JStr(t.symbol)), ("lastPrice", Cell(price)), ("volume", Cell(volume))])
  }

  /** A recent-trade object carrying `t`; the maker flag is set exactly when
      the side is "sell". */
  function TradeJson(t: Trade, price: Dec, qty: Dec): Json
  {
    JObj([("time", JInt(t.time)), ("isBuyerMaker", JBool(t.side == "sell")),
          ("price", Cell(price)), ("qty", Cell(qty))])
  }

  /** A kline row carrying `c` in Binance's position order (the five decimals
      written as `cells` say), followed by any further positions. */
  function KlineJson(c: Candle, cells: CandleCells, extra: seq<Json>): Json
  {
    JArr([JInt(c.time), Cell(cells.open), Cell(cells.high), Cell(cells.low),
          Cell(cells.close), Cell(cells.volume)] + extra)
  }

  /** `d` is a way of writing `x`. */
  predicate Writes(d: Dec, x: real)
  {
    Value(d) == x
  }

  /** `cells` write the candle's open, high, low, close and volume. */
  predicate WritesCandle(cells: CandleCells, c: Candle)
  {
    && Writes(cells.open, c.open) && Writes(cells.high, c.high) && Writes(cells.low, c.low)
    && Writes(cells.close, c.close) && Writes(cells.volume, c.volume)
  }

  /** The ticker list for `ts`, decimals written as `prices` and `volumes` say. */
  function TickerList(ts: seq<Ticker>, prices: seq<Dec>, volumes: seq<Dec>): (r: seq<Json>)
    requires |prices| == |ts| && |volumes| == |ts|
    requires forall i :: 0 <= i < |ts| ==> Writes(prices[i], ts[i].price) && Writes(volumes[i], ts[i].volume)
    ensures |r| == |ts| && forall i :: 0 <= i < |ts| ==> r[i] == TickerJson(ts[i], prices[i], volumes[i])
  {
    seq(|ts|, i requires 0 <= i < |ts| => TickerJson(ts[i], prices[i], volumes[i]))
  }

  /** The trade list for `ts`, decimals written as `prices` and `qtys` say. */
  function TradeList(ts: seq<Trade>, prices: seq<Dec>, qtys: seq<Dec>): (r: seq<Json>)
    requires |prices| == |ts| && |qtys| == |ts|
    requires forall i :: 0 <= i < |ts| ==> Writes(prices[i], ts[i].price) && Writes(qtys[i], ts[i].volume)
    ensures |r| == |ts| && forall i :: 0 <= i < |ts| ==> r[i] == TradeJson(ts[i], prices[i], qtys[i])
  {
    seq(|ts|, i requires 0 <= i < |ts| => TradeJson(ts[i], prices[i], qtys[i]))
  }

  /** The kline rows for `cs`, decimals written as `cells` say, each row
      followed by the matching `extras`. */
  function KlineList(cs: seq<Candle>, cells: seq<CandleCells>, extras: seq<seq<Json>>): (r: seq<Json>)
    requires |cells| == |cs| && |extras| == |cs|
    ensures |r| == |cs| && forall i :: 0 <= i < |cs| ==> r[i] == KlineJson(cs[i], cells[i], extras[i])
  {
    seq(|cs|, i requires 0 <= i < |cs| => KlineJson(cs[i], cells[i], extras[i]))
  }

  /** A decimal written at the first entry under `key` is what the field
      coercion reads there. */
  lemma DecimalCellField(j: Json, key: string, k: nat, d: Dec)
    requires j.JObj? && k < |j.fields| && j.fields[k] == (key, Cell(d))
    requires forall i :: 0 <= i < k ==> j.fields[i].0 != key
    ensures DecimalField(j, key) == Some(Value(d))
  {
    LookupFirst(j.fields, key, k);
    CellReadsBack(d);
  }

  lemma TickerJsonReadsBack(t: Ticker, price: Dec, volume: Dec)
    requires Writes(price, t.price) && Writes(volume, t.volume)
    ensures IsTickerObject(TickerJson(t, price, volume))
    ensures forall u :: TickerFrom(TickerJson(t, price, volume), u) ==> u == t
  {
    var j := TickerJson(t, price, volume);
    LookupFirst(j.fields, "symbol", 0);
    DecimalCellField(j, "lastPrice", 1, price);
    DecimalCellField(j, "volume", 2, volume);
  }

  /** The four fields of a trade object, whatever JSON the decimals are. */
  lemma TradeObjectFields(time: int, maker: bool, price: Json, qty: Json)
    ensures var j := JObj([("time", JInt(time)), ("isBuyerMaker", JBool(maker)),
                           ("price", price), ("qty", qty)]);
            && Field(j, "time") == Some(JInt(time))
            && Field(j, "isBuyerMaker") == Some(JBool(maker))
            && Field(j, "price") == Some(price)
            && Field(j, "qty") == Some(qty)
  {
    var fs := [("time", JInt(time)), ("isBuyerMaker", JBool(maker)), ("price", price), ("qty", qty)];
    LookupFirst(fs, "time", 0);
    LookupFirst(fs, "isBuyerMaker", 1);
    LookupFirst(fs, "price", 2);
    LookupFirst(fs, "qty", 3);
  }

  lemma TradeJsonReadsBack(t: Trade, price: Dec, qty: Dec)
    requires t.side in ["buy", "sell"]
    requires Writes(price, t.price) && Writes(qty, t.volume)
    ensures IsTradeObject(TradeJson(t, price, qty))
    ensures forall u :: TradeFrom(TradeJson(t, price, qty), u) ==> u == t
  {
    TradeObjectFields(t.time, t.side == "sell", Cell(price), Cell(qty));
    CellReadsBack(price);
    CellReadsBack(qty);
    assert Ds(Truthy(JBool(t.side == "sell"))) == t.side;
  }

  lemma KlineJsonReadsBack(c: Candle, cells: CandleCells, extra: seq<Json>)
    requires WritesCandle(cells, c)
    ensures IsKlineRow(KlineJson(c, cells, extra))
    ensures forall u :: CandleFrom(KlineJson(c, cells, extra), u) ==> u == c
  {
    CellReadsBack(cells.open);
    CellReadsBack(cells.high);
    CellReadsBack(cells.low);
    CellReadsBack(cells.close);
    CellReadsBack(cells.volume);
  }

  /** Mapping a ticker list built from `ts` gives `ts` back, however each
      decimal is written. */
  lemma MarketsRoundTrip(ts: seq<Ticker>, prices: seq<Dec>, volumes: seq<Dec>)
    requires |prices| == |ts| && |volumes| == |ts|
    requires forall i :: 0 <= i < |ts| ==> Writes(prices[i], ts[i].price) && Writes(volumes[i], ts[i].volume)
    ensures Markets(Response(OK, JArr(TickerList(ts, prices, volumes)))) == Ok(ts)
  {
    var items := TickerList(ts, prices, volumes);
    forall i | 0 <= i < |ts| ensures IsTickerObject(items[i]) {
      TickerJsonReadsBack(ts[i], prices[i], volumes[i]);
    }
    var r := Markets(Response(OK, JArr(items)));
    forall i | 0 <= i < |ts| ensures r.value[i] == ts[i] {
      TickerJsonReadsBack(ts[i], prices[i], volumes[i]);
    }
    assert r.value == ts;
  }

  /** Mapping a trade list built from `ts` gives `ts` back, provided every
      side is one of the two the maker flag can express. */
  lemma TradesRoundTrip(ts: seq<Trade>, prices: seq<Dec>, qtys: seq<Dec>)
    requires |prices| == |ts| && |qtys| == |ts|
    requires forall i :: 0 <= i < |ts| ==> ts[i].side in ["buy", "sell"]
    requires forall i :: 0 <= i < |ts| ==> Writes(prices[i], ts[i].price) && Writes(qtys[i], ts[i].volume)
    ensures Trades(Response(OK, JArr(TradeList(ts, prices, qtys)))) == Ok(ts)
  {
    var items := TradeList(ts, prices, qtys);
    forall i | 0 <= i < |ts| ensures IsTradeObject(items[i]) {
      TradeJsonReadsBack(ts[i], prices[i], qtys[i]);
    }
    var r := Trades(Response(OK, JArr(items)));
    forall i | 0 <= i < |ts| ensures r.value[i] == ts[i] {
      TradeJsonReadsBack(ts[i], prices[i], qtys[i]);
    }
    assert r.value == ts;
  }

  /** Mapping kline rows built from `cs` gives `cs` back, however each
      decimal is written and whatever follows the sixth position. */
  lemma KlineRoundTrip(cs: seq<Candle>, cells: seq<CandleCells>, extras: seq<seq<Json>>)
    requires |cells| == |cs| && |extras| == |cs|
    requires forall i :: 0 <= i < |cs| ==> WritesCandle(cells[i], cs[i])
    ensures Kline(Response(OK, JArr(KlineList(cs, cells, extras)))) == Ok(cs)
  {
    var items := KlineList(cs, cells, extras);
    forall i | 0 <= i < |cs| ensures IsKlineRow(items[i]) {
      KlineJsonReadsBack(cs[i], cells[i], extras[i]);
    }
    var r := Kline(Response(OK, JArr(items)));
    forall i | 0 <= i < |cs| ensures r.value[i] == cs[i] {
      KlineJsonReadsBack(cs[i], cells[i], extras[i]);
    }
    assert r.value == cs;
  }

  /** A ticker as the exchange sends it, prices as strings, is read. */
  lemma StringPricedTicker()
    ensures Markets(Response(OK, JArr([JObj([("symbol", JStr("ETHBTC")),
                                             ("lastPrice", JStr("0.0163")),
                                             ("volume", JStr("1.5"))])])))
            == Ok([Ticker("ETHBTC", 0.0163, 1.5)])
  {
    var t := Ticker("ETHBTC", 0.0163, 1.5);
    var p := Lit(false, 0, "0163");
    var v := Lit(false, 1, "5");
    assert DigitsValue("0163") == 163 by {
      assert "0163"[1..] == "163" && "163"[1..] == "63" && "63"[1..] == "3" && "3"[1..] == "";
    }
    assert DigitsValue("5") == 5 by { assert "5"[1..] == ""; }
    assert Pow10(4) == 10000;
    assert DecimalLiteral(false, 0, "0163") == "0.0163";
    assert DecimalLiteral(false, 1, "5") == "1.5";
    assert Writes(p, t.price) && Writes(v, t.volume);
    MarketsRoundTrip([t], [p], [v]);
    assert TickerList([t], [p], [v]) == [TickerJson(t, p, v)];
  }
}

=== FILE: coinalyze.dfy ===
/** The Coinalyze adapter: an authenticated client whose four endpoints return
    the decoded body as is. The open-interest and funding endpoints take a
    batch of at most twenty symbols, sent comma-joined in one `symbols`
    parameter; only open interest asks for USD conversion. */
module Coinalyze {
  import opened Wrappers
  import opened JsonData
  import opened Http
  import opened Adapter
  import Text

  const BaseUrl: string := "https://api.coinalyze.net"
  const SpotEndpoint: string := "/v1/spot-markets"
  const FutureEndpoint: string := "/v1/future-markets"
  const OpenInterestEndpoint: string := "/v1/open-interest"
  const FundingEndpoint: string := "/v1/funding-rate"

  /** The exchange's limit on symbols per open-interest or funding request. */
  const MaxMarkets: nat := 20

  datatype Client = Client(key: string)

  /** Client construction: the API key (read from the environment by the
      caller) must be non-empty, and is kept unchanged. */
  function New(key: string): (r: Result<Client, Error>)
    ensures r.Ok? <==> key != ""
    ensures r.Ok? ==> r.value.key == key
    ensures r.Err? ==> r.error == MissingKey
  {
    if key == "" then Err(MissingKey) else Ok(Client(key))
  }

  /** Every request carries the key in the `api_key` header. */
  function Headers(c: Client): seq<(string, string)>
  {
    [("api_key", c.key)]
  }

  /** The `symbols` query value: the markets comma-joined in the given order. */
  function Symbols(markets: seq<string>): string
  {
    Text.Join(markets, ',')
  }

  function SpotMarketsRequest(c: Client): (r: Request)
    ensures r.url == BaseUrl + SpotEndpoint && r.params == []
    ensures r.headers == [("api_key", c.key)]
  {
    Request(BaseUrl + SpotEndpoint, Headers(c), [])
  }

  function FuturesMarketsRequest(c: Client): (r: Request)
    ensures r.url == BaseUrl + FutureEndpoint && r.params == []
    ensures r.headers == [("api_key", c.key)]
  {
    Request(BaseUrl + FutureEndpoint, Headers(c), [])
  }

  /** `spot_markets`: the raw catalogue, or the error body. */
  function SpotMarkets(c: Client, resp: Response): (r: Result<Json, Error>)
    ensures r.Ok? <==> resp.status == OK
    ensures r.Ok? ==> r.value == resp.body
    ensures r.Err? ==> r.error == HttpError(resp.body)
  {
    CheckStatus(resp)
  }

  /** `futures_markets`: the raw catalogue, or the error body. */
  function FuturesMarkets(c: Client, resp: Response): (r: Result<Json, Error>)
    ensures r.Ok? <==> resp.status == OK
    ensures r.Ok? ==> r.value == resp.body
    ensures r.Err? ==> r.error == HttpError(resp.body)
  {
    CheckStatus(resp)
  }

  /** The open-interest request, refused before it is built when the batch is
      too long. */
  function OpenInterestRequest(c: Client, markets: seq<string>): (r: Result<Request, Error>)
    ensures r.Ok? <==> |markets| <= MaxMarkets
    ensures r.Err? ==> r.error == TooManyMarkets(|markets|)
    ensures r.Ok? ==> r.value.url == BaseUrl + OpenInterestEndpoint
    ensures r.Ok? ==> r.value.headers == [("api_key", c.key)]
    ensures r.Ok? ==> Lookup(r.value.params, "symbols") == Some(PStr(Text.Join(markets, ',')))
    ensures r.Ok? ==> Lookup(r.value.params, "convert_to_usd") == Some(PStr("true"))
  {
    if |markets| > MaxMarkets then Err(TooManyMarkets(|markets|))
    else Ok(Request(BaseUrl + OpenInterestEndpoint, Headers(c),
                    [("symbols", PStr(Symbols(markets))), ("convert_to_usd", PStr("true"))]))
  }

  /** The funding request: the same batch guard, and `symbols` is its only
      parameter. */
  function FundingRequest(c: Client, markets: seq<string>): (r: Result<Request, Error>)
    ensures r.Ok? <==> |markets| <= MaxMarkets
    ensures r.Err? ==> r.error == TooManyMarkets(|markets|)
    ensures r.Ok? ==> r.value.url == BaseUrl + FundingEndpoint
    ensures r.Ok? ==> r.value.headers == [("api_key", c.key)]
    ensures r.Ok? ==> Lookup(r.value.params, "symbols") == Some(PStr(Text.Join(markets, ',')))
    ensures r.Ok? ==> Lookup(r.value.params, "convert_to_usd") == None
    ensures r.Ok? ==> |r.value.params| == 1
  {
    if |markets| > MaxMarkets then Err(TooManyMarkets(|markets|))
    else Ok(Request(BaseUrl + FundingEndpoint, Headers(c), [("symbols", PStr(Symbols(markets)))]))
  }

  /** `open_interest`: the batch guard fires whatever the response would have
      been; otherwise the raw body or the error body. */
  function OpenInterest(c: Client, markets: seq<string>, resp: Response): (r: Result<Json, Error>)
    ensures |markets| > MaxMarkets ==> r == Err(TooManyMarkets(|markets|))
    ensures r.Ok? <==> |markets| <= MaxMarkets && resp.status == OK
    ensures r.Ok? ==> r.value == resp.body
    ensures |markets| <= MaxMarkets && resp.status != OK ==> r == Err(HttpError(resp.body))
  {
    var _ :- OpenInterestRequest(c, markets);
    CheckStatus(resp)
  }

  /** `funding`: as `open_interest`, for the funding-rate endpoint. */
  function Funding(c: Client, markets: seq<string>, resp: Response): (r: Result<Json, Error>)
    ensures |markets| > MaxMarkets ==> r == Err(TooManyMarkets(|markets|))
    ensures r.Ok? <==> |markets| <= MaxMarkets && resp.status == OK
    ensures r.Ok? ==> r.value == resp.body
    ensures |markets| <= MaxMarkets && resp.status != OK ==> r == Err(HttpError(resp.body))
  {
    var _ :- FundingRequest(c, markets);
    CheckStatus(resp)
  }

  /** The exchange can read the batch back: splitting the `symbols` value on
      commas gives the markets in order, when there is at least one market and
      none contains a comma. */
  lemma {:induction false} SymbolsRoundTrip(c: Client, markets: seq<string>)
    requires 0 < |markets| <= MaxMarkets
    requires forall i :: 0 <= i < |markets| ==> ',' !in markets[i]
    ensures OpenInterestRequest(c, markets).Ok? && FundingRequest(c, markets).Ok?
    ensures Lookup(OpenInterestRequest(c, markets).value.params, "symbols") == Some(PStr(Text.Join(markets, ',')))
    ensures Text.Split(Text.Join(markets, ','), ',') == markets
  {
    Text.SplitJoin(markets, ',');
  }
}

=== FILE: decimal.dfy ===
/** Reading a decimal literal such as "0.01634790" or "-12.5" into an exact
    real, as a `Decimal` field does with a string value: an optional sign,
    then digits with at most one decimal point, and at least one digit. */
module DecimalText {
  import opened Wrappers

  predicate IsDigit(c: char) { '0' <= c <= '9' }

  predicate AllDigits(s: string) { forall i :: 0 <= i < |s| ==> IsDigit(s[i]) }

  function DigitValue(c: char): (r: nat)
    requires IsDigit(c)
    ensures r < 10
  {
    c as int - '0' as int
  }

  function DigitChar(d: nat): (c: char)
    requires d < 10
    ensures IsDigit(c) && DigitValue(c) == d
  {
    ('0' as int + d) as char
  }

  function Pow10(k: nat): (r: nat)
    ensures r >= 1
  {
    if k == 0 then 1 else 10 * Pow10(k - 1)
  }

  /** The value of a digit string read most significant digit first; the
      empty string reads as zero. */
  function DigitsValue(ds: string): (r: nat)
    requires AllDigits(ds)
    ensures r < Pow10(|ds|)
  {
    if |ds| == 0 then 0
    else
      var d := DigitValue(ds[0]);
      var rest := DigitsValue(ds[1..]);
      var p := Pow10(|ds| - 1);
      LeadingDigitBound(d, rest, p);
      d * p + rest
  }

  /** A leading digit worth `d * p` over a tail below `p` stays below `10 * p`. */
  lemma LeadingDigitBound(d: nat, rest: nat, p: nat)
    requires d <= 9 && rest < p
    ensures d * p + rest < 10 * p
  {
    assert d * p <= 9 * p;
  }

  /** Shifting a leading digit and a tail one place each is shifting their sum. */
  lemma ShiftSum(d: int, p: int, x: int)
    ensures d * (10 * p) + x * 10 == (d * p + x) * 10
  {
  }

  /** Appending a digit shifts the value one place and adds the digit. */
  lemma {:induction false} DigitsValueSnoc(ds: string, c: char)
    requires AllDigits(ds) && IsDigit(c)
    ensures AllDigits(ds + [c])
    ensures DigitsValue(ds + [c]) == DigitsValue(ds) * 10 + DigitValue(c)
  {
    var s := ds + [c];
    assert AllDigits(s);
    if |ds| > 0 {
      assert s[1..] == ds[1..] + [c];
      DigitsValueSnoc(ds[1..], c);
      var d := DigitValue(ds[0]);
      var p := Pow10(|ds| - 1);
      assert Pow10(|s| - 1) == 10 * p;
      ShiftSum(d, p, DigitsValue(ds[1..]));
      calc {
        DigitsValue(s);
        d * (10 * p) + DigitsValue(ds[1..] + [c]);
        d * (10 * p) + DigitsValue(ds[1..]) * 10 + DigitValue(c);
        (d * p + DigitsValue(ds[1..])) * 10 + DigitValue(c);
      }
    }
  }

  /** The shortest decimal digits of `n` ("0" for zero). */
  function NatText(n: nat): (r: string)
    ensures |r| >= 1 && AllDigits(r)
    ensures DigitsValue(r) == n
  {
    if n < 10 then [DigitChar(n)]
    else
      var prefix := NatText(n / 10);
      DigitsValueSnoc(prefix, DigitChar(n % 10));
      prefix + [DigitChar(n % 10)]
  }

  /** The index of the first `c` in `s`, or `|s|` when there is none. */
  function IndexOf(s: string, c: char): (r: nat)
    ensures r <= |s|
    ensures r < |s| ==> s[r] == c
    ensures forall i :: 0 <= i < r ==> s[i] != c
  {
    if |s| == 0 then 0
    else if s[0] == c then 0
    else 1 + IndexOf(s[1..], c)
  }

  /** The literal's digits before and after the first decimal point. */
  function SplitAtPoint(body: string): (string, string)
  {
    var i := IndexOf(body, '.');
    if i < |body| then (body[..i], body[i + 1..]) else (body, "")
  }

  /** The text after an optional leading '+' or '-'. */
  function Unsigned(s: string): string
  {
    if |s| > 0 && (s[0] == '-' || s[0] == '+') then s[1..] else s
  }

  /** Digits and decimal points only, at most one point, at least one digit. */
  predicate PlainBody(b: string)
  {
    && (forall i :: 0 <= i < |b| ==> IsDigit(b[i]) || b[i] == '.')
    && (forall i, k :: 0 <= i < k < |b| && b[i] == '.' ==> b[k] != '.')
    && (exists i :: 0 <= i < |b| && IsDigit(b[i]))
  }

  /** A plain decimal literal: an optional sign, then a plain body. */
  predicate PlainLiteral(s: string)
  {
    PlainBody(Unsigned(s))
  }

  /** Splitting at the first point leaves two digit strings, not both empty,
      exactly when the text is a plain body. */
  lemma {:induction false} SplitShape(b: string)
    ensures var p := SplitAtPoint(b);
            AllDigits(p.0) && AllDigits(p.1) && |p.0| + |p.1| > 0 <==> PlainBody(b)
  {
    var idx := IndexOf(b, '.');
    var p := SplitAtPoint(b);
    if idx == |b| {
      assert p == (b, "");
      if PlainBody(b) {
        var i :| 0 <= i < |b| && IsDigit(b[i]);
      }
      if AllDigits(b) && |b| > 0 {
        assert IsDigit(b[0]);
      }
    } else {
      var w, f := b[..idx], b[idx + 1..];
      assert p == (w, f);
      if AllDigits(w) && AllDigits(f) && |w| + |f| > 0 {
        forall i | 0 <= i < |b| && i != idx ensures IsDigit(b[i]) {
          if i < idx {
            assert b[i] == w[i];
          } else {
            assert b[i] == f[i - idx - 1];
          }
        }
        forall i, k | 0 <= i < k < |b| && b[i] == '.' ensures b[k] != '.' {
          assert i == idx;
          assert IsDigit(b[k]);
        }
        if |w| > 0 {
          assert IsDigit(b[0]);
        } else {
          assert IsDigit(b[idx + 1]);
        }
      }
      if PlainBody(b) {
        forall i | 0 <= i < |f| ensures IsDigit(f[i]) {
          assert f[i] == b[idx + 1 + i];
        }
        var i :| 0 <= i < |b| && IsDigit(b[i]);
        if i > idx {
          assert |f| > 0;
        }
      }
    }
  }

  /** `Decimal(s)` for a plain decimal literal: an optional '+' or '-', then
      digits with at most one '.', with at least one digit in all. Anything
      else, an exponent or surrounding blanks included, is refused. */
  function ParseDecimal(s: string): (r: Option<real>)
    ensures r.Some? <==> PlainLiteral(s)
    ensures |s| >= 1 && AllDigits(s) ==> r == Some(DigitsValue(s) as real)
  {
    var body := Unsigned(s);
    var parts := SplitAtPoint(body);
    var whole := parts.0;
    var frac := parts.1;
    SplitShape(body);
    if AllDigits(whole) && AllDigits(frac) && |whole| + |frac| > 0 then
      var v := DigitsValue(whole) as real + (DigitsValue(frac) as real) / (Pow10(|frac|) as real);
      Some(if |s| > 0 && s[0] == '-' then -v else v)
    else None
  }

  /** The value written by a sign, a whole part and fractional digits. */
  function DecimalValue(negative: bool, whole: nat, frac: string): real
    requires AllDigits(frac)
  {
    var v := whole as real + (DigitsValue(frac) as real) / (Pow10(|frac|) as real);
    if negative then -v else v
  }

  /** The literal for a decimal: "-" when negative, the whole part's digits,
      then "." and the fractional digits when there are any. */
  function DecimalLiteral(negative: bool, whole: nat, frac: string): string
    requires AllDigits(frac)
  {
    (if negative then "-" else "") + NatText(whole) + (if |frac| > 0 then "." + frac else "")
  }

  /** In digits followed by a point, the first point follows the digits. */
  lemma {:induction false} IndexOfAfterDigits(w: string, tail: string)
    requires AllDigits(w)
    requires |tail| > 0 ==> tail[0] == '.'
    ensures IndexOf(w + tail, '.') == |w|
  {
    if |w| > 0 {
      assert (w + tail)[1..] == w[1..] + tail;
      IndexOfAfterDigits(w[1..], tail);
    } else {
      assert w + tail == tail;
    }
  }

  /** The unsigned text of a signed literal is what follows its sign. */
  lemma SignedBody(sign: string, body: string)
    requires sign == "" || sign == "+" || sign == "-"
    requires |body| > 0 && body[0] != '-' && body[0] != '+'
    ensures Unsigned(sign + body) == body
    ensures |sign + body| > 0 && ((sign + body)[0] == '-' <==> sign == "-")
  {
    if sign != "" {
      assert (sign + body)[1..] == body;
    }
  }

  /** Digits, then optionally a point and more digits, split at that point
      into the two digit strings; the text starts with neither sign. */
  lemma WrittenSplit(w: string, point: bool, f: string)
    requires AllDigits(w) && AllDigits(f) && |w| + |f| > 0
    requires !point ==> f == ""
    ensures var body := w + (if point then "." + f else "");
            && SplitAtPoint(body) == (w, f)
            && |body| > 0 && body[0] != '-' && body[0] != '+'
  {
    var tail := if point then "." + f else "";
    var body := w + tail;
    IndexOfAfterDigits(w, tail);
    if point {
      assert body[..|w|] == w;
      assert body[|w| + 1..] == f;
    } else {
      assert body == w;
    }
    if |w| > 0 {
      assert body[0] == w[0];
    } else {
      assert body[0] == '.';
    }
  }

  /** A text whose unsigned part splits into two digit strings reads as the
      value they write, negated after a '-'. */
  lemma ParseOfParts(s: string, w: string, f: string)
    requires SplitAtPoint(Unsigned(s)) == (w, f)
    requires AllDigits(w) && AllDigits(f) && |w| + |f| > 0
    ensures ParseDecimal(s) == Some(DecimalValue(|s| > 0 && s[0] == '-', DigitsValue(w), f))
  {
  }

  /** A literal with any sign ("", "+" or "-"), any digits before the point
      (leading zeros, or none at all), and after an optional point any
      digits, reads as the value those digits write. */
  lemma {:induction false} ParseWritten(sign: string, w: string, point: bool, f: string)
    requires sign == "" || sign == "+" || sign == "-"
    requires AllDigits(w) && AllDigits(f) && |w| + |f| > 0
    requires !point ==> f == ""
    ensures ParseDecimal(sign + (w + (if point then "." + f else ""))) ==
            Some(DecimalValue(sign == "-", DigitsValue(w), f))
  {
    var body := w + (if point then "." + f else "");
    WrittenSplit(w, point, f);
    SignedBody(sign, body);
    ParseOfParts(sign + body, w, f);
  }

  /** Reading a decimal in its shortest writing gives back its value. */
  lemma {:induction false} ParseDecimalLiteral(negative: bool, whole: nat, frac: string)
    requires AllDigits(frac)
    ensures ParseDecimal(DecimalLiteral(negative, whole, frac)) == Some(DecimalValue(negative, whole, frac))
  {
    var sign := if negative then "-" else "";
    var w := NatText(whole);
    var tail := if |frac| > 0 then "." + frac else "";
    assert DecimalLiteral(negative, whole, frac) == sign + (w + tail) by {
      assert (sign + w) + tail == sign + (w + tail);
    }
    ParseWritten(sign, w, |frac| > 0, frac);
  }

  /** A leading '+' is read. */
  lemma SignedSample()
    ensures ParseDecimal("+1.5") == Some(1.5)
  {
    assert Unsigned("+1.5") == "1.5";
    assert IndexOf("1.5", '.') == 1;
    assert "1.5"[..1] == "1" && "1.5"[2..] == "5";
    assert SplitAtPoint("1.5") == ("1", "5");
    assert DigitsValue("1") == 1;
    assert DigitsValue("5") == 5;
  }

  /** A point with no digits on one side is read. */
  lemma BarePointSamples()
    ensures ParseDecimal(".5") == Some(0.5)
    ensures ParseDecimal("5.") == Some(5.0)
  {
    assert Unsigned(".5") == ".5" && Unsigned("5.") == "5.";
    assert IndexOf(".5", '.') == 0 && IndexOf("5.", '.') == 1;
    assert ".5"[..0] == "" && ".5"[1..] == "5";
    assert "5."[..1] == "5" && "5."[2..] == "";
    assert SplitAtPoint(".5") == ("", "5");
    assert SplitAtPoint("5.") == ("5", "");
    assert DigitsValue("5") == 5;
  }

  /** Leading zeros are read. */
  lemma LeadingZerosSample()
    ensures ParseDecimal("007") == Some(7.0)
  {
    assert AllDigits("007");
    assert DigitsValue("007") == 7;
  }

  /** An exponent, a blank or an underscore is refused. */
  lemma RefusedSamples()
    ensures ParseDecimal("1e5") == None
    ensures ParseDecimal(" 1") == None
    ensures ParseDecimal("1_000") == None
  {
    assert !PlainBody("1e5") by { assert !IsDigit("1e5"[1]); }
    assert !PlainBody(" 1") by { assert !IsDigit(" 1"[0]); }
    assert !PlainBody("1_000") by { assert !IsDigit("1_000"[1]); }
  }
}

=== FILE: http.dfy ===
/** The HTTP boundary with the transport stripped away: a response is its
    status code and its decoded body; a request is what the adapter hands the
    client (URL, headers, query parameters in insertion order). */
module Http {
  import opened Wrappers
  import opened JsonData

  /** The only status the adapters accept (`httpx.codes.OK`). */
  const OK: int := 200

  datatype Response = Response(status: int, body: Json)

  /** A query-parameter value: httpx renders integers with `str()`. */
  datatype ParamValue = PStr(s: string) | PInt(i: int)

  datatype Request = Request(
    url: string,
    headers: seq<(string, string)>,
    params: seq<(string, ParamValue)>)
}

=== FILE: json.dfy ===
/** Decoded JSON as the toolkit sees it after `r.json()`: the value a Python
    JSON decoder produces. Integers and non-integral numbers are kept apart,
    as Python's decoder keeps `int` and `float` apart; non-integral numbers
    are held exactly. An object holds the decoded dict's entries in order;
    as in a Python dict, its keys are distinct, so the first entry under a
    key is the only one. */
module JsonData {
  import opened Wrappers
  import opened DecimalText

  datatype Json =
    | JNull
    | JBool(b: bool)
    | JInt(i: int)
    | JNum(n: real)
    | JStr(s: string)
    | JArr(items: seq<Json>)
    | JObj(fields: seq<(string, Json)>)

  /** The value of the first entry named `key` in a list of named entries
      (a decoded object's fields, a request's query parameters), if any. */
  function Lookup<V>(fields: seq<(string, V)>, key: string): (r: Option<V>)
    ensures r.Some? ==> (key, r.value) in fields
    ensures r.None? ==> forall i :: 0 <= i < |fields| ==> fields[i].0 != key
  {
    if |fields| == 0 then None
    else if fields[0].0 == key then Some(fields[0].1)
    else Lookup(fields[1..], key)
  }

  /** The value found for `key` is that of its first entry of that name. */
  lemma {:induction false} LookupFirst<V>(fields: seq<(string, V)>, key: string, k: nat)
    requires k < |fields| && fields[k].0 == key
    requires forall i :: 0 <= i < k ==> fields[i].0 != key
    ensures Lookup(fields, key) == Some(fields[k].1)
  {
    if k > 0 {
      LookupFirst(fields[1..], key, k - 1);
    }
  }

  /** Python's `obj[key]` on a decoded value: only a dict can be indexed by a
      string, and a missing key raises. */
  function Field(j: Json, key: string): (r: Option<Json>)
    ensures r.Some? ==> j.JObj? && (key, r.value) in j.fields
    ensures r.None? ==> !j.JObj? || forall i :: 0 <= i < |j.fields| ==> j.fields[i].0 != key
  {
    match j
    case JObj(fields) => Lookup(fields, key)
    case _ => None
  }

  /** Python truthiness of a decoded value, as `if value:` evaluates it. */
  predicate Truthy(j: Json)
    ensures !Truthy(j) <==> j in {JNull, JBool(false), JInt(0), JNum(0.0), JStr(""), JArr([]), JObj([])}
  {
    match j
    case JNull => false
    case JBool(b) => b
    case JInt(i) => i != 0
    case JNum(n) => n != 0.0
    case JStr(s) => s != ""
    case JArr(items) => |items| != 0
    case JObj(fields) => |fields| != 0
  }

  /** What `for x in value` yields over a decoded value: a list yields its
      elements, a dict its keys, a string its one-character strings; numbers,
      booleans and None are not iterable. */
  function Iterable(j: Json): (r: Option<seq<Json>>)
    ensures j.JArr? ==> r == Some(j.items)
    ensures r.Some? ==> j.JArr? || j.JObj? || j.JStr?
    ensures j.JObj? ==> r.Some? && |r.value| == |j.fields|
    ensures j.JObj? ==> forall i :: 0 <= i < |j.fields| ==> r.value[i] == JStr(j.fields[i].0)
    ensures j.JStr? ==> r.Some? && |r.value| == |j.s|
    ensures j.JStr? ==> forall i :: 0 <= i < |j.s| ==> r.value[i] == JStr([j.s[i]])
  {
    match j
    case JArr(items) => Some(items)
    case JObj(fields) => Some(seq(|fields|, i requires 0 <= i < |fields| => JStr(fields[i].0)))
    case JStr(s) => Some(seq(|s|, i requires 0 <= i < |s| => JStr([s[i]])))
    case _ => None
  }

  /** Coercion of a decoded value into a timestamp field: an integer. */
  function AsTime(j: Json): (r: Option<int>)
    ensures r.Some? <==> j.JInt?
    ensures r.Some? ==> r.value == j.i
  {
    if j.JInt? then Some(j.i) else None
  }

  /** Coercion of a decoded value into a decimal field: an integer or a
      number, read exactly, or a string holding a decimal literal. */
  function AsDecimal(j: Json): Option<real>
  {
    match j
    case JInt(i) => Some(i as real)
    case JNum(n) => Some(n)
    case JStr(s) => ParseDecimal(s)
    case _ => None
  }

  /** The decimal coercion accepts exactly integers, numbers and plain
      decimal literals, and reads integers and numbers exactly; a boolean,
      None, a list or a dict is refused. */
  lemma AsDecimalAccepts(j: Json)
    ensures AsDecimal(j).Some? <==> j.JInt? || j.JNum? || (j.JStr? && PlainLiteral(j.s))
    ensures j.JInt? ==> AsDecimal(j) == Some(j.i as real)
    ensures j.JNum? ==> AsDecimal(j) == Some(j.n)
  {
  }

  /** Coercion of a decoded value into a string field. */
  function AsText(j: Json): (r: Option<string>)
    ensures r.Some? <==> j.JStr?
    ensures r.Some? ==> r.value == j.s
  {
    if j.JStr? then Some(j.s) else None
  }

  /** `obj[key]` followed by the decimal coercion. */
  function DecimalField(j: Json, key: string): (r: Option<real>)
    ensures !j.JObj? ==> r.None?
    ensures r.Some? ==> j.JObj? && Lookup(j.fields, key).Some? && AsDecimal(Lookup(j.fields, key).value) == r
    ensures j.JObj? && Lookup(j.fields, key).Some? && AsDecimal(Lookup(j.fields, key).value).Some? ==> r.Some?
  {
    var v :- Field(j, key);
    AsDecimal(v)
  }
}

=== FILE: models.dfy ===
/** The toolkit's shared value types: the closed set of candle timeframes
    with their wire codes, and the four records every adapter produces.
    Decimals are exact reals; timestamps are integers. Construction checks
    shape only, never relations between fields. */
module Models {
  import opened Wrappers

  datatype Timeframe = Minutly | Hourly | Daily | Weekly | Monthly

  /** Every timeframe, once each. */
  const AllTimeframes: seq<Timeframe> := [Minutly, Hourly, Daily, Weekly, Monthly]

  /** The wire code of a timeframe (the enum member's value). */
  function Code(t: Timeframe): (r: string)
    ensures |r| == 2 && r[0] == '1'
  {
    match t
    case Minutly => "1m"
    case Hourly => "1h"
    case Daily => "1d"
    case Weekly => "1w"
    case Monthly => "1M"
  }

  /** `Timeframe(code)`: the member whose value is `code`, if any. */
  function FromCode(code: string): (r: Option<Timeframe>)
    ensures r.Some? ==> Code(r.value) == code
    ensures r.None? ==> forall t: Timeframe :: Code(t) != code
  {
    if code == "1m" then Some(Minutly)
    else if code == "1h" then Some(Hourly)
    else if code == "1d" then Some(Daily)
    else if code == "1w" then Some(Weekly)
    else if code == "1M" then Some(Monthly)
    else None
  }

  /** Decoding a timeframe's code gives the timeframe back. */
  lemma CodeRoundTrip(t: Timeframe)
    ensures FromCode(Code(t)) == Some(t)
  {
  }

  /** Distinct timeframes have distinct codes: "1m" and "1M" differ by case
      only, and still name different timeframes. */
  lemma CodeInjective(a: Timeframe, b: Timeframe)
    requires Code(a) == Code(b)
    ensures a == b
  {
    CodeRoundTrip(a);
    CodeRoundTrip(b);
  }

  /** There are exactly five timeframes with exactly these codes. */
  lemma ExactlyFiveTimeframes()
    ensures |AllTimeframes| == 5
    ensures forall t: Timeframe :: t in AllTimeframes
    ensures forall i, j :: 0 <= i < j < |AllTimeframes| ==> Code(AllTimeframes[i]) != Code(AllTimeframes[j])
    ensures forall t: Timeframe :: Code(t) in ["1m", "1h", "1d", "1w", "1M"]
  {
    forall t: Timeframe ensures t in AllTimeframes {
      match t
      case Minutly => assert AllTimeframes[0] == t;
      case Hourly => assert AllTimeframes[1] == t;
      case Daily => assert AllTimeframes[2] == t;
      case Weekly => assert AllTimeframes[3] == t;
      case Monthly => assert AllTimeframes[4] == t;
    }
  }

  datatype Trade = Trade(time: int, side: string, price: real, volume: real)

  datatype Candle = Candle(time: int, open: real, high: real, low: real, close: real, volume: real)

  datatype Ticker = Ticker(symbol: string, price: real, volume: real)

  datatype Market = Market(symbol: string, base: string, quote: string)
}

=== FILE: notebook.dfy ===
/** The notebooks' variant of the value types: the trade side is the closed
    `Side` enumeration instead of a free string, the timeframe enumeration is
    repeated with the same codes, and there is no `Market` record. */
module Notebook {
  import opened Wrappers
  import opened JsonData
  import opened Http
  import Models
  import Binance

  datatype Side = Buy | Sell

  function SideCode(s: Side): (r: string)
    ensures r == "buy" || r == "sell"
  {
    match s
    case Buy => "buy"
    case Sell => "sell"
  }

  /** `Side(code)`: the member whose value is `code`, if any. */
  function SideFromCode(code: string): (r: Option<Side>)
    ensures r.Some? ==> SideCode(r.value) == code
    ensures r.None? ==> forall s: Side :: SideCode(s) != code
  {
    if code == "buy" then Some(Buy)
    else if code == "sell" then Some(Sell)
    else None
  }

  /** There are exactly two sides, with distinct codes that decode back. */
  lemma SideCodes(s: Side)
    ensures s == Buy || s == Sell
    ensures SideCode(Buy) != SideCode(Sell)
    ensures SideFromCode(SideCode(s)) == Some(s)
  {
  }

  /** `_ds` lifted into `Side`: every string it returns is a side's code, so
      the lift is total, and it tells the two flags apart. */
  function SideOfMaker(isMaker: bool): (r: Side)
    ensures SideCode(r) == Binance.Ds(isMaker)
    ensures r == Sell <==> isMaker
  {
    SideFromCode(Binance.Ds(isMaker)).value
  }

  datatype Timeframe = Minutly | Hourly | Daily | Weekly | Monthly

  /** The wire code of a timeframe (the enum member's value). */
  function Code(t: Timeframe): (r: string)
    ensures |r| == 2 && r[0] == '1'
  {
    match t
    case Minutly => "1m"
    case Hourly => "1h"
    case Daily => "1d"
    case Weekly => "1w"
    case Monthly => "1M"
  }

  /** The toolkit timeframe with the same name; it has the same code. */
  function ToToolkit(t: Timeframe): (r: Models.Timeframe)
    ensures Models.Code(r) == Code(t)
  {
    match t
    case Minutly => Models.Minutly
    case Hourly => Models.Hourly
    case Daily => Models.Daily
    case Weekly => Models.Weekly
    case Monthly => Models.Monthly
  }

  /** The notebook timeframe with the same name. */
  function FromToolkit(t: Models.Timeframe): (r: Timeframe)
    ensures Code(r) == Models.Code(t)
  {
    match t
    case Minutly => Minutly
    case Hourly => Hourly
    case Daily => Daily
    case Weekly => Weekly
    case Monthly => Monthly
  }

  /** The two enumerations correspond one to one, code for code. */
  lemma TimeframesAgree(t: Timeframe, u: Models.Timeframe)
    ensures FromToolkit(ToToolkit(t)) == t
    ensures ToToolkit(FromToolkit(u)) == u
    ensures Code(t) == Models.Code(u) <==> ToToolkit(t) == u
  {
    if Code(t) == Models.Code(u) {
      Models.CodeInjective(ToToolkit(t), u);
    }
  }

  datatype Trade = Trade(time: int, side: Side, price: real, volume: real)

  datatype Candle = Candle(time: int, open: real, high: real, low: real, close: real, volume: real)

  datatype Ticker = Ticker(symbol: string, price: real, volume: real)

  /** A toolkit trade as a notebook trade: possible exactly when its side
      string is a side's code; every other field is carried over in place. */
  function LiftTrade(t: Models.Trade): (r: Option<Trade>)
    ensures r.Some? <==> t.side in ["buy", "sell"]
    ensures r.Some? ==> SideCode(r.value.side) == t.side
    ensures r.Some? ==> r.value.time == t.time && r.value.price == t.price && r.value.volume == t.volume
  {
    var side :- SideFromCode(t.side);
    Some(Trade(t.time, side, t.price, t.volume))
  }

  /** A toolkit candle as a notebook candle: the field order is the same, so
      the conversion is a bijection. */
  function LiftCandle(c: Models.Candle): (r: Candle)
    ensures Models.Candle(r.time, r.open, r.high, r.low, r.close, r.volume) == c
  {
    Candle(c.time, c.open, c.high, c.low, c.close, c.volume)
  }

  /** A toolkit ticker as a notebook ticker: the same three fields. */
  function LiftTicker(t: Models.Ticker): (r: Ticker)
    ensures Models.Ticker(r.symbol, r.price, r.volume) == t
  {
    Ticker(t.symbol, t.price, t.volume)
  }

  /** Every trade the Binance adapter produces lifts into a notebook trade,
      with the side the maker flag names. */
  lemma BinanceTradesLift(resp: Response)
    requires Binance.Trades(resp).Ok?
    ensures forall t :: t in Binance.Trades(resp).value ==> LiftTrade(t).Some?
    ensures resp.body.JArr? ==>
      var ts := Binance.Trades(resp).value;
      forall i :: 0 <= i < |ts| ==>
        LiftTrade(ts[i]).Some? &&
        LiftTrade(ts[i]).value.side == SideOfMaker(Truthy(Field(resp.body.items[i], "isBuyerMaker").value))
  {
    var ts := Binance.Trades(resp).value;
    if resp.body.JArr? {
      forall i | 0 <= i < |ts|
        ensures LiftTrade(ts[i]).Some?
        ensures LiftTrade(ts[i]).value.side == SideOfMaker(Truthy(Field(resp.body.items[i], "isBuyerMaker").value))
      {
        var m := Truthy(Field(resp.body.items[i], "isBuyerMaker").value);
        assert ts[i].side == Binance.Ds(m);
        assert SideCode(LiftTrade(ts[i]).value.side) == SideCode(SideOfMaker(m));
        SideCodes(LiftTrade(ts[i]).value.side);
        SideCodes(SideOfMaker(m));
      }
    }
  }
}

=== FILE: status.dfy ===
/** The rule every operation of both adapters shares: a response whose status
    is not 200 yields an error carrying the decoded body unchanged, and never
    a partial result. */
module StatusRule {
  import opened Wrappers
  import opened Http
  import opened Adapter
  import Coinalyze
  import Binance

  lemma NonOkIsHttpError(c: Coinalyze.Client, markets: seq<string>, resp: Response)
    requires resp.status != OK
    requires |markets| <= Coinalyze.MaxMarkets
    ensures Coinalyze.SpotMarkets(c, resp) == Err(HttpError(resp.body))
    ensures Coinalyze.FuturesMarkets(c, resp) == Err(HttpError(resp.body))
    ensures Coinalyze.OpenInterest(c, markets, resp) == Err(HttpError(resp.body))
    ensures Coinalyze.Funding(c, markets, resp) == Err(HttpError(resp.body))
    ensures Binance.Markets(resp) == Err(HttpError(resp.body))
    ensures Binance.Trades(resp) == Err(HttpError(resp.body))
    ensures Binance.Kline(resp) == Err(HttpError(resp.body))
  {
  }
}

=== FILE: text.dfy ===
/** Python's `sep.join(parts)` and `s.split(sep)` for a one-character
    separator, and the round trip between them. */
module Text {

  /** The combined length of the parts. */
  function TotalLength(parts: seq<string>): nat
  {
    if |parts| == 0 then 0 else |parts[0]| + TotalLength(parts[1..])
  }

  /** `sep.join(parts)`: the parts in order, a separator between neighbours. */
  function Join(parts: seq<string>, sep: char): (r: string)
    ensures |parts| == 0 ==> r == ""
    ensures |parts| > 0 ==> parts[0] <= r && |r| == TotalLength(parts) + |parts| - 1
  {
    if |parts| == 0 then ""
    else if |parts| == 1 then parts[0]
    else parts[0] + [sep] + Join(parts[1..], sep)
  }

  /** Where part `i` starts in `sep.join(parts)`: after the parts before it
      and one separator following each of them. */
  function Start(parts: seq<string>, i: nat): nat
    requires i <= |parts|
  {
    TotalLength(parts[..i]) + i
  }

  /** A part after the first starts one separator past the first part and
      where it starts in the join of the remaining parts. */
  lemma StartStep(parts: seq<string>, i: nat)
    requires 0 < i <= |parts|
    ensures Start(parts, i) == |parts[0]| + 1 + Start(parts[1..], i - 1)
  {
    assert parts[..i][0] == parts[0];
    assert parts[..i][1..] == parts[1..][..i - 1];
  }

  /** A slice of the tail of `head + [sep] + tail` is the same slice one
      head and one separator further on. */
  lemma ShiftedSlice(head: string, sep: char, tail: string, k: nat, x: string)
    requires k + |x| <= |tail| && tail[k..k + |x|] == x
    ensures var r := head + [sep] + tail; var o := |head| + 1 + k;
            o + |x| <= |r| && r[o..o + |x|] == x
  {
    var r := head + [sep] + tail;
    var o := |head| + 1 + k;
    assert r[o..o + |x|] == tail[k..k + |x|];
  }

  /** The join holds every part at its start position, in order. */
  lemma {:induction false} JoinHoldsParts(parts: seq<string>, sep: char)
    ensures forall i :: 0 <= i < |parts| ==>
      Start(parts, i) + |parts[i]| <= |Join(parts, sep)| &&
      Join(parts, sep)[Start(parts, i)..Start(parts, i) + |parts[i]|] == parts[i]
  {
    if |parts| == 1 {
      assert parts[..0] == [];
    } else if |parts| > 1 {
      var tail := parts[1..];
      JoinHoldsParts(tail, sep);
      var rt := Join(tail, sep);
      var r := Join(parts, sep);
      assert r == parts[0] + [sep] + rt;
      forall i | 0 <= i < |parts|
        ensures Start(parts, i) + |parts[i]| <= |r| && r[Start(parts, i)..Start(parts, i) + |parts[i]|] == parts[i]
      {
        if i == 0 {
          assert parts[..0] == [];
          assert r[0..|parts[0]|] == parts[0];
        } else {
          StartStep(parts, i);
          assert tail[i - 1] == parts[i];
          ShiftedSlice(parts[0], sep, rt, Start(tail, i - 1), parts[i]);
        }
      }
    }
  }

  /** Just before every part but the first the join holds the separator. */
  lemma {:induction false} JoinSeparates(parts: seq<string>, sep: char)
    ensures forall i :: 0 < i < |parts| ==>
      0 < Start(parts, i) <= |Join(parts, sep)| && Join(parts, sep)[Start(parts, i) - 1] == sep
  {
    if |parts| > 1 {
      var tail := parts[1..];
      JoinSeparates(tail, sep);
      var rt := Join(tail, sep);
      var r := Join(parts, sep);
      var off := |parts[0]| + 1;
      assert r == parts[0] + [sep] + rt;
      forall i | 0 < i < |parts|
        ensures 0 < Start(parts, i) <= |r| && r[Start(parts, i) - 1] == sep
      {
        StartStep(parts, i);
        if i == 1 {
          assert tail[..0] == [];
          assert r[off - 1] == sep;
        } else {
          var k := Start(tail, i - 1);
          assert r[off + k - 1] == rt[k - 1];
        }
      }
    }
  }

  /** `s.split(sep)`: the maximal separator-free pieces, one more than the
      number of separators (so the empty string splits into one empty piece). */
  function Split(s: string, sep: char): (r: seq<string>)
    ensures |r| >= 1
    ensures forall i :: 0 <= i < |r| ==> sep !in r[i]
  {
    if |s| == 0 then [""]
    else
      var rest := Split(s[1..], sep);
      if s[0] == sep then [""] + rest
      else [[s[0]] + rest[0]] + rest[1..]
  }

  lemma {:induction false} SplitNoSeparator(a: string, sep: char)
    requires sep !in a
    ensures Split(a, sep) == [a]
  {
    if |a| > 0 {
      SplitNoSeparator(a[1..], sep);
      assert [a[0]] + a[1..] == a;
    }
  }

  lemma {:induction false} SplitAfterSeparator(a: string, b: string, sep: char)
    requires sep !in a
    ensures Split(a + [sep] + b, sep) == [a] + Split(b, sep)
  {
    var s := a + [sep] + b;
    if |a| == 0 {
      assert s == [sep] + b;
      assert s[1..] == b;
    } else {
      assert s[1..] == a[1..] + [sep] + b;
      SplitAfterSeparator(a[1..], b, sep);
      assert [a[0]] + a[1..] == a;
    }
  }

  /** Splitting a join recovers the parts, provided there is at least one
      part and no part contains the separator. */
  lemma {:induction false} SplitJoin(parts: seq<string>, sep: char)
    requires |parts| > 0
    requires forall i :: 0 <= i < |parts| ==> sep !in parts[i]
    ensures Split(Join(parts, sep), sep) == parts
  {
    if |parts| == 1 {
      SplitNoSeparator(parts[0], sep);
    } else {
      SplitJoin(parts[1..], sep);
      SplitAfterSeparator(parts[0], Join(parts[1..], sep), sep);
      assert [parts[0]] + parts[1..] == parts;
    }
  }

  /** The empty list joins to the empty string, which splits into one empty
      piece: the round trip needs a non-empty list. */
  lemma JoinEmptySplitsToOnePiece(sep: char)
    ensures Join([], sep) == ""
    ensures Split(Join([], sep), sep) == [""]
  {
  }

  /** Joining is injective on non-empty lists of separator-free parts. */
  lemma JoinInjective(a: seq<string>, b: seq<string>, sep: char)
    requires |a| > 0 && |b| > 0
    requires forall i :: 0 <= i < |a| ==> sep !in a[i]
    requires forall i :: 0 <= i < |b| ==> sep !in b[i]
    requires Join(a, sep) == Join(b, sep)
    ensures a == b
  {
    SplitJoin(a, sep);
    SplitJoin(b, sep);
  }

  /** A part that contains the separator is not recovered by splitting. */
  lemma SeparatorInsidePartIsLost()
    ensures Join(["a,b"], ',') == "a,b"
    ensures Split(Join(["a,b"], ','), ',') == ["a", "b"]
  {
    assert "a,b" == "a" + [','] + "b";
    SplitAfterSeparator("a", "b", ',');
    SplitNoSeparator("b", ',');
  }
}

=== FILE: utils.dfy ===
/** The opt-in OHLC consistency check for a candle. */
module Utils {
  import opened Models

  function Max(a: real, b: real): real { if a >= b then a else b }

  function Min(a: real, b: real): real { if a <= b then a else b }

  /** Python's `max(a, b, c, d)`. */
  function Max4(a: real, b: real, c: real, d: real): (r: real)
    ensures r >= a && r >= b && r >= c && r >= d
    ensures r == a || r == b || r == c || r == d
  {
    Max(Max(Max(a, b), c), d)
  }

  /** Python's `min(a, b, c, d)`. */
  function Min4(a: real, b: real, c: real, d: real): (r: real)
    ensures r <= a && r <= b && r <= c && r <= d
    ensures r == a || r == b || r == c || r == d
  {
    Min(Min(Min(a, b), c), d)
  }

  /** Open and close both lie between low and high. */
  predicate Ordered(c: Candle)
  {
    c.low <= c.open <= c.high && c.low <= c.close <= c.high
  }

  /** `verify_candle`: high is the largest and low the smallest of the four
      prices. Equivalently, open and close lie within [low, high]. */
  predicate VerifyCandle(c: Candle)
    ensures VerifyCandle(c) <==> Ordered(c)
  {
    var isHighest := c.high == Max4(c.high, c.low, c.open, c.close);
    var isLowest := c.low == Min4(c.high, c.low, c.open, c.close);
    isHighest && isLowest
  }

  /** A high below the open or the close is rejected. */
  lemma HighBelowBodyRejected(c: Candle)
    requires c.high < c.open || c.high < c.close
    ensures !VerifyCandle(c)
  {
  }

  /** A low above the open or the close is rejected. */
  lemma LowAboveBodyRejected(c: Candle)
    requires c.low > c.open || c.low > c.close
    ensures !VerifyCandle(c)
  {
  }

  /** An accepted candle has low <= open, close <= high. */
  lemma AcceptedIsBounded(c: Candle)
    requires VerifyCandle(c)
    ensures c.low <= c.open <= c.high
    ensures c.low <= c.close <= c.high
    ensures c.low <= c.high
  {
  }

  /** The verdict reads only the four prices: time and volume do not matter. */
  lemma IndependentOfTimeAndVolume(c: Candle, time: int, volume: real)
    ensures VerifyCandle(c.(time := time, volume := volume)) == VerifyCandle(c)
  {
  }

  /** Exchanging open and close does not change the verdict. */
  lemma SymmetricInOpenAndClose(c: Candle)
    ensures VerifyCandle(c.(open := c.close, close := c.open)) == VerifyCandle(c)
  {
  }

  /** A flat candle (all four prices equal) is accepted. */
  lemma FlatCandleAccepted(time: int, p: real, volume: real)
    ensures VerifyCandle(Candle(time, p, p, p, p, volume))
  {
  }

  /** Building a candle does not check its prices: one with high below low
      exists, and only the verdict rejects it. */
  lemma InvertedCandleConstructible()
    ensures var c := Candle(0, 1.0, 0.5, 2.0, 1.0, 0.0);
            c.high < c.low && !VerifyCandle(c)
  {
  }
}

=== FILE: wrappers.dfy ===
/** Failure-compatible wrappers used throughout the model: `Option` for a
    lookup or coercion that may find nothing, `Result` for an operation that
    either fully succeeds or raises. Both support the `:-` operator. */
module Wrappers {

  datatype Option<+T> = None | Some(value: T) {
    predicate IsFailure() { None? }

    function PropagateFailure<U>(): Option<U>
      requires None?
    {
      None
    }

    function Extract(): T
      requires Some?
    {
      value
    }
  }

  datatype Result<+T, +E> = Ok(value: T) | Err(error: E) {
    predicate IsFailure() { Err? }

    function PropagateFailure<U>(): Result<U, E>
      requires Err?
    {
      Err(error)
    }

    function Extract(): T
      requires Ok?
    {
      value
    }
  }
}
